=== FILE: README.md ===
# Document QA demo: file naming and callback decisions

This project is a Dafny model of the original logic of a small Dash web
application. The application answers questions about uploaded PDF files. It
stores an upload under `assets/temp/`. On request it runs OCR to produce a
`<name>_transcribed.pdf` derivative. It builds a FAISS index under
`assets/db/<base name>/` and sends questions to a local language model.
Chunking, embedding, vector search and inference all happen in external
libraries. What the application itself decides is modelled here:

- how names and paths are derived from an uploaded file name: the OCR
  derivative's name, `base_filename`, `get_db_path` and `db_exists`;
- the branch logic of the callbacks. This covers the upload
  (`update_output`, `parse_contents`, `parse_pdf`) and the status line
  (`update_status`). It covers `transcribe`, `index` and `llm_query`. It also
  covers the delete button (`clear_files`, `clear_dir`).

Modelling choices:

- Strings are `seq<char>`. Python's `str.replace` is `Strings.ReplaceAll`: it
  scans left to right and replaces every non-overlapping occurrence. The
  substring test `in` is `Strings.Contains`, which is proved equal to "occurs
  at some offset". `filename[-4:]` is `Strings.LastChars`, which is proved
  equal to a suffix test. Unpacking `contents.split(',')` into two names is
  `Strings.SplitPair`. It succeeds exactly when the data URL holds one comma.
- The file system is a `set` of existing paths (`Paths.FileSystem`).
- Whatever an external library does becomes an input:
  - whether the upload's file can be opened (`opens`) and whether the base64
    payload decodes (`decodes`);
  - how the OCR branch ends (`Transcription.OcrRun`);
  - whether the index builder returns normally (`builds`);
  - the directory listings, which are absent when `os.listdir` raises;
  - which removals raise (`failing`).
- A callback that raises becomes `Results.Err`, or a `NoUpdate` reply.
  `transcribe` with a click count below one raises `UnboundLocalError` on
  `transcribed`: that is `StatusUnbound`. `None >= 1` raises `TypeError`:
  that is `ClicksMissing`.

Behaviour of the code that the model keeps:

- `transcribe` renames the returned file name before it opens the output
  file. If opening fails, the callback reports failure but returns a
  derivative name whose file does not exist. The next click takes that name
  for a derivative and shows "Transcribed: True" for the missing file
  (`Transcription.RenameBeforeWrite`).
  If the write fails after the open, a partial derivative is left behind,
  and a later request for the original name treats it as a cache hit.
- The returned name is stable under a second click in every case but one: when
  OCR itself fails, the original name comes back, and a later click can
  rename it (`Transcription.OcrFailureThenRenames`).
- `index` sets "Index previously built" when an index exists. It then always
  rebuilds and overwrites that text, so the text is never shown.
- A failed build still hands its index directory to the query callback.
  `llm_query` only checks that the directory name is non-empty, so it queries
  the directory of an index whose build failed (`Workflow.QueryFollowsIndex`).
- `parse_pdf` opens (and so creates) `assets/temp/<filename>` before it
  decodes the payload. A payload that fails to decode still leaves the path
  behind. If the open itself raises, nothing is created and the upload is
  not taken.
- `update_output` throws away what `parse_contents` returns. The
  "unsupported" message is computed but never displayed.
- Resetting both click counts to 0 on upload fires `transcribe` and `index`
  again. The first raises and the second reports "File not yet indexed"
  (`Workflow.UploadResetFiresCallbacks`).

## Model

| member | source | states |
|---|---|---|
| Strings.Contains | main.py:202 | Python's substring test: an occurrence is never longer than the text holding it |
| Strings.ReplaceAll | main.py:242-243 | Python's `str.replace`: replacing with something no longer than the pattern never lengthens the text, and with something no shorter never shortens it |
| Strings.LastChars | main.py:139 | `s[-n:]` has length `n`, or the whole length when `s` is shorter, and is always a suffix of `s` |
| Strings.LastCharsIsSuffixTest | main.py:139 | `filename[-4:] == '.pdf'` holds exactly when the name ends in `.pdf`, including for names shorter than four characters |
| Strings.SplitPair | main.py:169 | the two-name unpacking of `contents.split(',')` succeeds exactly when the contents hold one comma, and the two halves rebuild the contents around it |
| Paths.TranscribedName | main.py:242 | the derivative's name contains `_transcribed.pdf` whenever the name contains `.pdf`; a name without `.pdf` is returned unchanged; renaming never shortens a name |
| Paths.BaseFilename | main.py:208-209 | the base name is never longer than the file name, and a name with neither `_transcribed.pdf` nor `.pdf` is its own base name |
| Paths.DbPath | main.py:211-212 | an index directory always lies under `assets/db/` and ends with `/` |
| Paths.IndexNeedsBothFiles | main.py:214-215 | `db_exists` (`Paths.DbExists`) requires both files: removing either `index.faiss` or `index.pkl` makes the index absent, and adding both makes it present |
| Paths.TranscribedNameOfPdf | main.py:242 | for a dot-free stem, the OCR derivative of `stem.pdf` is `stem_transcribed.pdf` |
| Paths.BaseOfPdf | main.py:208-209 | for a dot-free stem not ending in `_transcribed`, the base name of `stem.pdf` is `stem` |
| Paths.BaseOfTranscribed | main.py:208-209 | for a dot-free stem, the base name of `stem_transcribed.pdf` is `stem` |
| Paths.DerivativeSharesIndex | main.py:208-212 | a PDF and its OCR derivative map to the same index directory `assets/db/<stem>/` |
| Paths.TempPathRename | main.py:228 | renaming the stored path renames only its file part: it gives `assets/temp/` followed by the derivative's name |
| Upload.ParsePdf | main.py:168-173 | the path is created exactly when the data URL splits in two, the name has no `_transcribed.pdf` and the open succeeds; the upload is stored only if the payload also decodes; a derivative's name is skipped |
| Upload.ParseContents | main.py:138-146 | an upload is stored at `assets/temp/<filename>` exactly when the name ends in `.pdf`, has no `_transcribed.pdf`, its data URL splits in two and the file opens and decodes; nothing else is written; a non-PDF gets the unsupported message; it raises exactly for a PDF name with a bad data URL, or a non-derivative PDF name whose open or decode fails; the unsupported message goes exactly to names not ending in `.pdf`, and a derivative is skipped exactly when its PDF name has a well-formed data URL |
| Upload.UpdateOutput | main.py:182-185 | without contents nothing updates; otherwise the parse's file effect happens, and the page switches to the uploaded name with both click counts at 0 exactly when the parse did not raise |
| Transcription.Transcribe | main.py:222-249 | missing or sub-1 click counts raise; a derivative name returns unchanged with no OCR; an existing derivative is a cache hit with no OCR; otherwise OCR runs, at most the derivative's path is added, "True" only when it was written, and the name is renamed unless OCR itself failed |
| Transcription.TranscribeIdempotent | main.py:225-249 | transcribing the name a call returned, on the file system it left, returns that same name again unless the first call's OCR itself failed; after a successful call the second runs no OCR and writes nothing |
| Transcription.OcrFailureThenRenames | main.py:232-248 | the exception to idempotence: OCR failing on `stem.pdf` returns `stem.pdf` with the failure text, and a later click can return `stem_transcribed.pdf` |
| Transcription.TranscribeAgainIsCacheHit | main.py:228-231 | after a successful transcription, requesting the original name again returns the same derivative name without OCR |
| Transcription.OcrWritesOneFile | main.py:232-246 | a successful OCR adds exactly one path, the derivative's, and removes none |
| Transcription.RenameBeforeWrite | main.py:225-248 | when opening the output fails, the status reads "Transcribed: Failed to transcribe file" but the returned name is `stem_transcribed.pdf`, whose file does not exist; the next click then reports "Transcribed: True" for that missing file, with no OCR |
| Transcription.UpdateStatus | main.py:200-206 | the status line reports OCR as applied exactly when the name contains `_transcribed.pdf` |
| Transcription.StatusOfDocumentNames | main.py:200-206 | `stem.pdf` is shown as not yet transcribed; `stem_transcribed.pdf` is shown as "OCR applied to stem successfully" |
| Indexing.Index | main.py:255-270 | without a click (None or 0) there is no index directory and "not yet indexed"; with one, the build is attempted even over an existing index, the text is built or failed and never "previously built"; a successful build makes the index present and writes nothing but its two files under the index directory, and a failed one writes nothing |
| Querying.LlmQuery | main.py:108-135 | the query is made, with that question and that index directory, exactly when the click count is truthy and both are non-empty; a question with no directory gets "Index not yet built"; anything else gets the placeholder, which reads "Result will appear here" whenever the button has not been clicked |
| Cleanup.RemovalTargets | main.py:84-85 | at most one removal target per listed entry, each a path inside the cleared directory |
| Cleanup.RemovalTargetsExact | main.py:83-85 | every listed name other than the sample is targeted for removal, and every target is the directory followed by such a name |
| Cleanup.SampleNeverTargeted | main.py:83-85 | the sample file is never among the removal targets |
| Cleanup.ClearFiles | main.py:83-91 | removal is attempted on exactly the non-sample entries in listing order; the paths whose removal succeeds disappear; the sample file survives |
| Cleanup.ClearDir | main.py:93-100 | removal is attempted on every entry; a path survives exactly when it lies under no entry whose removal succeeded |
| Cleanup.DeleteTemporary | main.py:78-100 | the delete button creates nothing and keeps the sample file; it raises exactly when a listing fails, and a failed first listing changes nothing; otherwise exactly the listed non-sample temporary files whose removal succeeds disappear, and, when the index root is listed too, exactly the paths under its entries whose removal succeeds disappear as well, so a removed index directory no longer holds an index |
| Workflow.UploadResetFiresCallbacks | main.py:182-185 | the zeroed click counts after an upload make `transcribe` raise and `index` show "File not yet indexed"; a question then gets "Index not yet built" |
| Workflow.QueryFollowsIndex | main.py:255-270 | after a clicked `index`, even one whose page text reads "Failed to build index for" the file, a clicked query goes to `get_db_path(filename)`; before any click it gets "Index not yet built" |
| Workflow.DocumentLifecycle | main.py:168-270 | this is one document's life. Uploading `stem.pdf` stores it. OCR writes `stem_transcribed.pdf` and the page switches to that name. The status credits OCR to `stem`. Indexing builds `assets/db/<stem>/`, which the original name maps to as well. A question is then answered from that index. |

## Left out

- Dash layout, callback registration and rendering are UI wiring. This
  covers `update_preview`, the HTML trees and the citation list. It also
  covers the `print` logging.
- `parse_img` is never called.
- Base64 decoding and file contents are left out. Only whether decoding
  succeeds matters, and whether a path exists.
- The OCR libraries (pdf2image, pytesseract, PyPDF2) are foreign calls.
  Their outcome is the `OcrRun` input. The model does not tie OCR failure to
  the source file being missing.
- `run_db_build` is left out: loading, splitting, embedding and saving are
  delegated to langchain and FAISS. Its outcome is the `builds` input. It
  reads the file name as a glob pattern, and the model ignores that.
- Indexing.Index: a failed build is modelled as writing nothing, because a
  partially saved index is not modelled.
- The `query` call and the language model are left out: retrieval,
  inference, timing and the answer text. `Querying.QueryView.Answer` records
  only that the call is made, and with which arguments.
- Configuration loading, the prompt template and the CUDA probe (`src/`) are
  left out. They are constants and library wrappers.
- `os.listdir` order and contents are inputs, and so is whether it raises.
  The listing is not derived from the path set.
- Cleanup.ClearDir: a failing `shutil.rmtree` is modelled as removing
  nothing, because it may stop partway through.
- Strings.ReplaceAll requires a non-empty pattern. The application only
  replaces the constants `.pdf` and `_transcribed.pdf`.
- Callbacks are modelled one at a time. Concurrent sessions racing on the
  same paths are not modelled.

=== FILE: cleanup.dfy ===
/** The "Delete Temporary Files" button: `clear_files` removes every file of
    the temporary directory except the sample document, and `clear_dir`
    removes every index directory. Each removal may fail on its own; a
    failure is reported and the loop goes on. */
module Cleanup {
  import opened Results
  import opened Strings
  import opened Paths

  /** The document shipped with the application, which is never deleted. */
  const SampleName: String := "PublicWaterMassMailing.pdf"

  /** The paths `clear_files` tries to remove for a directory listing, in
      listing order: every entry except `sample`, prefixed with `dir`. */
  function RemovalTargets(dir: String, sample: String, listing: seq<String>): (r: seq<String>)
    ensures |r| <= |listing|
    ensures forall k :: 0 <= k < |r| ==> StartsWith(r[k], dir)
    decreases |listing|
  {
    if |listing| == 0 then []
    else
      var init := RemovalTargets(dir, sample, listing[..|listing| - 1]);
      var name := listing[|listing| - 1];
      assert (dir + name)[..|dir|] == dir;
      if sample != name then init + [dir + name] else init
  }

  /** The targets are exactly the non-sample entries: each one is tried, and
      every target is `dir` followed by such an entry. */
  lemma {:induction false} RemovalTargetsExact(dir: String, sample: String, listing: seq<String>)
    ensures forall name :: name in listing && name != sample ==> dir + name in RemovalTargets(dir, sample, listing)
    ensures forall p :: p in RemovalTargets(dir, sample, listing) ==>
              StartsWith(p, dir) && p[|dir|..] in listing && p[|dir|..] != sample
    decreases |listing|
  {
    if |listing| > 0 {
      var init := listing[..|listing| - 1];
      RemovalTargetsExact(dir, sample, init);
      assert listing == init + [listing[|listing| - 1]];
      var name := listing[|listing| - 1];
      assert (dir + name)[..|dir|] == dir && (dir + name)[|dir|..] == name;
    }
  }

  /** The sample document is never among the targets. */
  lemma SampleNeverTargeted(dir: String, sample: String, listing: seq<String>)
    ensures dir + sample !in RemovalTargets(dir, sample, listing)
  {
  }

  /** The set of targets whose removal succeeded. */
  function Removed(targets: seq<String>, failing: set<String>): set<String> {
    set p | p in targets && p !in failing
  }

  /** `clear_files(dir, sample)` over the entries `listing` of `dir`;
      removing a path in `failing` raises and is skipped. */
  method ClearFiles(dir: String, sample: String, listing: seq<String>, fs: FileSystem, failing: set<String>)
    returns (attempted: seq<String>, fs': FileSystem)
    ensures attempted == RemovalTargets(dir, sample, listing)
    ensures fs' == fs - Removed(attempted, failing)
    ensures dir + sample in fs ==> dir + sample in fs'
  {
    attempted := [];
    fs' := fs;
    var i := 0;
    while i < |listing|
      invariant 0 <= i <= |listing|
      invariant attempted == RemovalTargets(dir, sample, listing[..i])
      invariant fs' == fs - Removed(attempted, failing)
    {
      var name := listing[i];
      assert listing[..i + 1][..i] == listing[..i];
      if sample != name {
        var path := dir + name;
        attempted := attempted + [path];
        if path !in failing {
          fs' := fs' - {path};
        }
      }
      i := i + 1;
    }
    assert listing[..|listing|] == listing;
    SampleNeverTargeted(dir, sample, listing);
  }

  /** `q` lies in the tree rooted at `root`: the root itself or below it. */
  predicate Under(q: String, root: String) {
    q == root || StartsWith(q, root + "/")
  }

  /** `clear_dir(dir)` over the entries `listing` of `dir`: every entry's tree
      is removed unless its removal raises. Afterwards a path survives
      exactly when it was present and lies under no successfully removed
      entry. */
  method ClearDir(dir: String, listing: seq<String>, fs: FileSystem, failing: set<String>)
    returns (attempted: seq<String>, fs': FileSystem)
    ensures |attempted| == |listing|
    ensures forall k :: 0 <= k < |listing| ==> attempted[k] == dir + listing[k]
    ensures forall q :: q in fs' <==>
              q in fs && forall k :: 0 <= k < |listing| && attempted[k] !in failing ==> !Under(q, attempted[k])
  {
    attempted := [];
    fs' := fs;
    var i := 0;
    while i < |listing|
      invariant 0 <= i <= |listing|
      invariant |attempted| == i
      invariant forall k :: 0 <= k < i ==> attempted[k] == dir + listing[k]
      invariant forall q :: q in fs' <==>
                  q in fs && forall k :: 0 <= k < i && attempted[k] !in failing ==> !Under(q, attempted[k])
    {
      var root := dir + listing[i];
      attempted := attempted + [root];
      if root !in failing {
        fs' := set q | q in fs' && !Under(q, root);
      }
      i := i + 1;
    }
  }

  /** An index directory's files lie under that directory. */
  lemma IndexFilesUnder(root: String)
    ensures Under(root + "/" + IndexFile, root)
    ensures Under(root + "/" + IndexMetaFile, root)
  {
  }

  /** Nothing in the temporary directory lies under an index directory. */
  lemma TempNotUnderDb(name: String, entry: String)
    ensures !Under(TempDir + name, DbRoot + entry)
  {
    var q := TempDir + name;
    var root := DbRoot + entry;
    assert q[7] == 't';
    assert root[7] == 'd';
    assert (root + "/")[7] == 'd';
  }

  /** `delete_btn`: clear the temporary directory (sparing the sample), then
      clear the index root. A listing is `None` when `os.listdir` raises (the
      directory is missing); that exception ends the callback, so a failed
      first listing leaves everything as it was and a failed second listing
      leaves the index root untouched. Otherwise exactly the removals that
      succeed take effect: a listed non-sample temporary file, or any path
      under a listed index entry, disappears when its removal does not raise,
      and every other path survives. So the sample survives, no path is
      created, and no index whose directory was removed is present any more. */
  method DeleteTemporary(tempListing: Option<seq<String>>, dbListing: Option<seq<String>>,
                         fs: FileSystem, failing: set<String>)
    returns (fs': FileSystem, raised: bool)
    ensures fs' <= fs
    ensures raised <==> tempListing.None? || dbListing.None?
    ensures tempListing.None? ==> fs' == fs
    ensures TempDir + SampleName in fs ==> TempDir + SampleName in fs'
    ensures tempListing.Some? ==>
              forall name :: name in tempListing.value && name != SampleName && TempDir + name !in failing ==>
                TempDir + name !in fs'
    ensures tempListing.Some? ==> fs' <= fs - Removed(RemovalTargets(TempDir, SampleName, tempListing.value), failing)
    ensures tempListing.Some? && dbListing.None? ==>
              fs' == fs - Removed(RemovalTargets(TempDir, SampleName, tempListing.value), failing)
    ensures tempListing.Some? && dbListing.Some? ==>
              forall q :: q in fs' <==>
                q in fs - Removed(RemovalTargets(TempDir, SampleName, tempListing.value), failing)
                && forall name :: name in dbListing.value && DbRoot + name !in failing ==> !Under(q, DbRoot + name)
    ensures tempListing.Some? && dbListing.Some? ==>
              forall name :: name in dbListing.value && DbRoot + name !in failing ==>
                !DbExists(DbRoot + name + "/", fs')
  {
    if tempListing.None? {
      return fs, true;
    }
    var _, fs1 := ClearFiles(TempDir, SampleName, tempListing.value, fs, failing);
    RemovalTargetsExact(TempDir, SampleName, tempListing.value);
    if dbListing.None? {
      return fs1, true;
    }
    var names := dbListing.value;
    var attempted, fs2 := ClearDir(DbRoot, names, fs1, failing);
    forall name | name in names && DbRoot + name !in failing
      ensures !DbExists(DbRoot + name + "/", fs2)
    {
      var k :| 0 <= k < |names| && names[k] == name;
      IndexFilesUnder(DbRoot + name);
      assert DbRoot + name + "/" + IndexFile == (DbRoot + name + "/") + IndexFile;
      assert Under(DbRoot + name + "/" + IndexFile, attempted[k]);
    }
    if TempDir + SampleName in fs {
      forall k | 0 <= k < |names|
        ensures !Under(TempDir + SampleName, attempted[k])
      {
        TempNotUnderDb(SampleName, names[k]);
      }
    }
    fs', raised := fs2, false;
  }
}

=== FILE: indexing.dfy ===
/** The `index` callback: on a click it (re)builds the index of the current
    file under its index directory and reports the outcome. */
module Indexing {
  import opened Results
  import opened Strings
  import opened Paths

  /** The text `index` shows. */
  datatype IndexText =
    | NotYetIndexed
    | PreviouslyBuilt(filename: String)
    | Built(filename: String)
    | BuildFailed(filename: String)

  function IndexTextRender(t: IndexText): String {
    match t
    case NotYetIndexed => "File not yet indexed"
    case PreviouslyBuilt(f) => "Index previously built for " + f
    case Built(f) => "Index built for " + f
    case BuildFailed(f) => "Failed to build index for " + f
  }

  /** The returned index directory (`None` until a click), the text, the
      resulting file system, and whether the builder was invoked. */
  datatype Indexed = Indexed(dbPath: Option<String>, text: IndexText, fs: FileSystem, buildRan: bool)

  /** Python's `n_clicks or 0`. */
  function ClicksOrZero(nClicks: Option<int>): int {
    if nClicks.Some? then nClicks.value else 0
  }

  /** What a successful build leaves behind: both files of the index. */
  function WithIndex(dbPath: String, fs: FileSystem): FileSystem {
    fs + {dbPath + IndexFile, dbPath + IndexMetaFile}
  }

  /** `index(n_clicks, filename)`; `builds` is whether the index builder
      returns normally. The "previously built" text is set when an index is
      already present but is always overwritten, because the build is
      attempted regardless. */
  function Index(nClicks: Option<int>, filename: String, fs: FileSystem, builds: bool): (r: Indexed)
    ensures !r.text.PreviouslyBuilt?
    ensures r.buildRan <==> nClicks.Some? && nClicks.value >= 1
    ensures !r.buildRan ==> r == Indexed(None, NotYetIndexed, fs, false)
    ensures r.buildRan ==> r.dbPath == Some(DbPath(filename))
    ensures r.buildRan ==> r.text == if builds then Built(filename) else BuildFailed(filename)
    ensures r.buildRan && builds ==> DbExists(DbPath(filename), r.fs)
    ensures fs <= r.fs && (!builds ==> r.fs == fs)
    ensures r.fs - fs <= {DbPath(filename) + IndexFile, DbPath(filename) + IndexMetaFile}
  {
    var n := ClicksOrZero(nClicks);
    if n >= 1 then
      var dbPath := DbPath(filename);
      if builds then Indexed(Some(dbPath), Built(filename), WithIndex(dbPath, fs), true)
      else Indexed(Some(dbPath), BuildFailed(filename), fs, true)
    else
      Indexed(None, NotYetIndexed, fs, false)
  }
}

=== FILE: paths.dfy ===
/** The application's naming convention: where an upload is stored, what its
    OCR derivative is called, which base name keys its index, and when an
    index counts as present. The file system is the set of paths that exist. */
module Paths {
  import opened Strings

  const PdfExt: String := ".pdf"
  /** Suffix that replaces `.pdf` in the name of an OCR derivative. */
  const TranscribedSuffix: String := "_transcribed.pdf"
  /** Directory holding uploads and OCR derivatives. */
  const TempDir: String := "assets/temp/"
  /** Directory holding one index directory per document. */
  const DbRoot: String := "assets/db/"
  /** The two files a persisted index consists of. */
  const IndexFile: String := "index.faiss"
  const IndexMetaFile: String := "index.pkl"

  type FileSystem = set<String>

  /** `filename.replace('.pdf', '_transcribed.pdf')`. */
  function TranscribedName(filename: String): (r: String)
    ensures Contains(filename, PdfExt) ==> Contains(r, TranscribedSuffix)
    ensures !Contains(filename, PdfExt) ==> r == filename
    ensures |r| >= |filename|
  {
    if Contains(filename, PdfExt) then
      ReplaceAllIntroduces(filename, PdfExt, TranscribedSuffix);
      ReplaceAll(filename, PdfExt, TranscribedSuffix)
    else
      ReplaceAllWithoutMatch(filename, PdfExt, TranscribedSuffix);
      ReplaceAll(filename, PdfExt, TranscribedSuffix)
  }

  /** `base_filename`: strip `_transcribed.pdf`, then `.pdf`, everywhere. */
  function BaseFilename(filename: String): (r: String)
    ensures |r| <= |filename|
    ensures !Contains(filename, TranscribedSuffix) && !Contains(filename, PdfExt) ==> r == filename
  {
    if !Contains(filename, TranscribedSuffix) && !Contains(filename, PdfExt) then
      ReplaceAllWithoutMatch(filename, TranscribedSuffix, "");
      ReplaceAllWithoutMatch(filename, PdfExt, "");
      ReplaceAll(ReplaceAll(filename, TranscribedSuffix, ""), PdfExt, "")
    else
      ReplaceAll(ReplaceAll(filename, TranscribedSuffix, ""), PdfExt, "")
  }

  /** `get_db_path`: the index directory of a document, with a trailing slash. */
  function DbPath(filename: String): (r: String)
    ensures StartsWith(r, DbRoot) && EndsWith(r, "/")
  {
    DbRoot + BaseFilename(filename) + "/"
  }

  /** `db_exists`: an index is present when both of its files exist. */
  predicate DbExists(dbPath: String, fs: FileSystem) {
    dbPath + IndexFile in fs && dbPath + IndexMetaFile in fs
  }

  /** Either index file alone does not make an index present; both do. */
  lemma IndexNeedsBothFiles(dbPath: String, fs: FileSystem)
    ensures !DbExists(dbPath, fs - {dbPath + IndexFile})
    ensures !DbExists(dbPath, fs - {dbPath + IndexMetaFile})
    ensures DbExists(dbPath, fs + {dbPath + IndexFile, dbPath + IndexMetaFile})
  {
  }

  /** A name without a dot has no `.pdf` in it. */
  lemma DotFreeHasNoPdf(s: String)
    requires '.' !in s
    ensures !Contains(s, PdfExt)
  {
    forall i | 0 <= i && i + 4 <= |s|
      ensures !OccursAt(s, PdfExt, i)
    {
      assert s[i..i + 4][0] == s[i];
    }
    ContainsIffOccurs(s, PdfExt);
  }

  /** In `stem + tail` with a dot-free `stem`, no `.pdf` starts inside `stem`. */
  lemma NoPdfInStem(stem: String, tail: String)
    requires '.' !in stem
    ensures NoMatchBelow(stem + tail, PdfExt, |stem|)
  {
    var t := stem + tail;
    forall i | 0 <= i < |stem| && i + 4 <= |t|
      ensures !OccursAt(t, PdfExt, i)
    {
      assert t[i..i + 4][0] == stem[i];
    }
  }

  /** The only dot of `_transcribed.pdf` is at offset 12. */
  lemma SuffixDot(j: int)
    requires 0 <= j < |TranscribedSuffix|
    ensures TranscribedSuffix[j] == '.' <==> j == 12
  {
  }

  /** `_transcribed.pdf` cannot start at `i` of `stem + tail` when its dot
      would fall inside the dot-free `stem`. */
  lemma SuffixNeedsDot(stem: String, tail: String, i: int)
    requires '.' !in stem && 0 <= i && i + 12 < |stem|
    ensures !OccursAt(stem + tail, TranscribedSuffix, i)
  {
    var t := stem + tail;
    if i + 16 <= |t| {
      assert t[i..i + 16][12] == stem[i + 12];
    }
  }

  /** `stem + "_transcribed.pdf"`: no occurrence of the suffix starts inside `stem`. */
  lemma NoSuffixInStem(stem: String)
    requires '.' !in stem
    ensures NoMatchBelow(stem + TranscribedSuffix, TranscribedSuffix, |stem|)
  {
    var t := stem + TranscribedSuffix;
    forall i | 0 <= i < |stem|
      ensures !OccursAt(t, TranscribedSuffix, i)
    {
      if i + 12 < |stem| {
        SuffixNeedsDot(stem, TranscribedSuffix, i);
      } else {
        var j := i + 12 - |stem|;
        SuffixDot(j);
        assert t[i..i + 16][12] == TranscribedSuffix[j];
      }
    }
  }

  /** `stem + ".pdf"` holds `_transcribed.pdf` only if `stem` ends in `_transcribed`. */
  lemma NoSuffixInPdfName(stem: String)
    requires '.' !in stem && !EndsWith(stem, "_transcribed")
    ensures !Contains(stem + PdfExt, TranscribedSuffix)
  {
    var t := stem + PdfExt;
    forall i | 0 <= i && i + 16 <= |t|
      ensures !OccursAt(t, TranscribedSuffix, i)
    {
      if i + 12 < |stem| {
        SuffixNeedsDot(stem, PdfExt, i);
      } else {
        assert i + 12 == |stem|;
        assert t[i..i + 16] == stem[i..] + PdfExt;
        assert t[i..i + 16][..12] == stem[i..];
        assert TranscribedSuffix[..12] == "_transcribed";
      }
    }
    ContainsIffOccurs(t, TranscribedSuffix);
  }

  /** The OCR derivative of `stem.pdf` is `stem_transcribed.pdf`. */
  lemma TranscribedNameOfPdf(stem: String)
    requires '.' !in stem
    ensures TranscribedName(stem + PdfExt) == stem + TranscribedSuffix
  {
    NoPdfInStem(stem, PdfExt);
    ReplaceAllKeepsPrefix(stem, PdfExt, PdfExt, TranscribedSuffix);
    ReplaceAllOfPattern(PdfExt, TranscribedSuffix);
  }

  /** The base name of `stem.pdf` is `stem`. */
  lemma BaseOfPdf(stem: String)
    requires '.' !in stem && !EndsWith(stem, "_transcribed")
    ensures BaseFilename(stem + PdfExt) == stem
  {
    NoSuffixInPdfName(stem);
    ReplaceAllWithoutMatch(stem + PdfExt, TranscribedSuffix, "");
    NoPdfInStem(stem, PdfExt);
    ReplaceAllKeepsPrefix(stem, PdfExt, PdfExt, "");
    ReplaceAllOfPattern(PdfExt, "");
  }

  /** The base name of `stem_transcribed.pdf` is `stem`. */
  lemma BaseOfTranscribed(stem: String)
    requires '.' !in stem
    ensures BaseFilename(stem + TranscribedSuffix) == stem
  {
    NoSuffixInStem(stem);
    ReplaceAllKeepsPrefix(stem, TranscribedSuffix, TranscribedSuffix, "");
    ReplaceAllOfPattern(TranscribedSuffix, "");
    assert stem + "" == stem;
    DotFreeHasNoPdf(stem);
    ReplaceAllWithoutMatch(stem, PdfExt, "");
  }

  /** A PDF and its OCR derivative share one index directory,
      `assets/db/<stem>/`. */
  lemma DerivativeSharesIndex(stem: String)
    requires '.' !in stem && !EndsWith(stem, "_transcribed")
    ensures DbPath(stem + PdfExt) == DbRoot + stem + "/"
    ensures DbPath(TranscribedName(stem + PdfExt)) == DbRoot + stem + "/"
  {
    BaseOfPdf(stem);
    TranscribedNameOfPdf(stem);
    BaseOfTranscribed(stem);
  }

  /** Renaming the stored path renames only the file name: the temporary
      directory has no dot, so `.pdf` never starts inside it. */
  lemma TempPathRename(filename: String)
    ensures ReplaceAll(TempDir + filename, PdfExt, TranscribedSuffix) == TempDir + TranscribedName(filename)
  {
    NoPdfInStem(TempDir, filename);
    ReplaceAllKeepsPrefix(TempDir, filename, PdfExt, TranscribedSuffix);
  }
}

=== FILE: querying.dfy ===
/** The `llm_query` callback: it asks the question against the current index
    only when the button was clicked and both the question and the index
    directory are present. */
module Querying {
  import opened Results
  import opened Strings

  /** Python truthiness of an optional click count: absent or zero is false. */
  predicate ClicksTruthy(nClicks: Option<int>) {
    nClicks.Some? && nClicks.value != 0
  }

  /** Python truthiness of an optional string: absent or empty is false. */
  predicate TextTruthy(s: Option<String>) {
    s.Some? && |s.value| > 0
  }

  /** What the query panel shows: the answer to `question` from the index at
      `dbPath` (the query call itself is external), or one of two messages. */
  datatype QueryView = Answer(question: String, dbPath: String) | IndexNotBuilt | Placeholder

  function QueryMessage(v: QueryView): String
    requires !v.Answer?
  {
    match v
    case IndexNotBuilt => "Index not yet built"
    case Placeholder => "Result will appear here"
  }

  /** `llm_query(n_clicks, qstring, db_path)`. */
  function LlmQuery(nClicks: Option<int>, qstring: Option<String>, dbPath: Option<String>): (r: QueryView)
    ensures r.Answer? <==> ClicksTruthy(nClicks) && TextTruthy(qstring) && TextTruthy(dbPath)
    ensures r.Answer? ==> qstring == Some(r.question) && dbPath == Some(r.dbPath)
    ensures r.IndexNotBuilt? <==> ClicksTruthy(nClicks) && TextTruthy(qstring) && !TextTruthy(dbPath)
    ensures !ClicksTruthy(nClicks) || !TextTruthy(qstring) ==> r.Placeholder?
    ensures !ClicksTruthy(nClicks) ==> QueryMessage(r) == "Result will appear here"
  {
    if nClicks.Some? && nClicks.value != 0 then
      if qstring.Some? && qstring.value != [] && dbPath.Some? && dbPath.value != [] then
        Answer(qstring.value, dbPath.value)
      else if qstring.Some? && qstring.value != [] then IndexNotBuilt
      else Placeholder
    else Placeholder
  }
}

=== FILE: results.dfy ===
/** The two ways a callback step can come out. A step that raises in the
    application becomes `Err` and one that returns becomes `Ok`; a value
    Python may leave as `None` is an `Option`. */
module Results {

  /** `None` stands for Python's `None`: a click count Dash has not set yet,
      a directory listing that raised, a split that did not give two parts. */
  datatype Option<+T> = None | Some(value: T)

  datatype Result<+T, +E> = Ok(value: T) | Err(error: E)
}

=== FILE: strings.dfy ===
/** The handful of Python `str` operations the application relies on,
    over `seq<char>`: prefix and suffix tests, the `in` substring test,
    `str.replace` (replace every occurrence), the `s[-n:]` slice and the
    two-way unpacking of `s.split(c)`. */
module Strings {
  import opened Results

  type String = seq<char>

  predicate StartsWith(s: String, p: String) {
    |p| <= |s| && s[..|p|] == p
  }

  predicate EndsWith(s: String, p: String) {
    |p| <= |s| && s[|s| - |p|..] == p
  }

  /** Python's `p in s`: `p` starts at the front of `s` or somewhere in its tail. */
  predicate Contains(s: String, p: String)
    ensures Contains(s, p) ==> |p| <= |s|
    decreases |s|
  {
    StartsWith(s, p) || (|s| > 0 && Contains(s[1..], p))
  }

  /** Reference notion of an occurrence: `p` sits in `s` at offset `i`. */
  ghost predicate OccursAt(s: String, p: String, i: int) {
    0 <= i && i + |p| <= |s| && s[i..i + |p|] == p
  }

  /** `Contains` agrees with "there is an offset at which `p` occurs". */
  lemma {:induction false} ContainsIffOccurs(s: String, p: String)
    ensures Contains(s, p) <==> exists i :: OccursAt(s, p, i)
    decreases |s|
  {
    if StartsWith(s, p) {
      assert OccursAt(s, p, 0);
    } else if |s| > 0 {
      ContainsIffOccurs(s[1..], p);
      if exists i :: OccursAt(s[1..], p, i) {
        var i :| OccursAt(s[1..], p, i);
        assert s[1..][i..i + |p|] == s[i + 1..i + 1 + |p|];
        assert OccursAt(s, p, i + 1);
      }
      if exists i :: OccursAt(s, p, i) {
        var i :| OccursAt(s, p, i);
        assert i != 0;
        assert s[1..][i - 1..i - 1 + |p|] == s[i..i + |p|];
        assert OccursAt(s[1..], p, i - 1);
      }
    }
  }

  /** Python's `s[-n:]` for `n > 0`: the last `n` characters, or all of `s`
      when it is shorter. */
  function LastChars(s: String, n: nat): (r: String)
    requires n > 0
    ensures |r| == if |s| < n then |s| else n
    ensures EndsWith(s, r)
  {
    if |s| < n then s else s[|s| - n..]
  }

  /** `s[-len(p):] == p` is exactly the suffix test. */
  lemma LastCharsIsSuffixTest(s: String, p: String)
    requires |p| > 0
    ensures LastChars(s, |p|) == p <==> EndsWith(s, p)
  {
  }

  /** Python's `str.replace(pat, sub)` with a non-empty pattern: scanning left
      to right, every non-overlapping occurrence of `pat` becomes `sub`. */
  function ReplaceAll(s: String, pat: String, sub: String): (r: String)
    requires |pat| > 0
    ensures |sub| <= |pat| ==> |r| <= |s|
    ensures |sub| >= |pat| ==> |r| >= |s|
    decreases |s|
  {
    if |s| < |pat| then s
    else if StartsWith(s, pat) then sub + ReplaceAll(s[|pat|..], pat, sub)
    else [s[0]] + ReplaceAll(s[1..], pat, sub)
  }

  /** Text in which `pat` does not occur comes back unchanged. */
  lemma {:induction false} ReplaceAllWithoutMatch(s: String, pat: String, sub: String)
    requires |pat| > 0 && !Contains(s, pat)
    ensures ReplaceAll(s, pat, sub) == s
    decreases |s|
  {
    if |s| >= |pat| {
      ReplaceAllWithoutMatch(s[1..], pat, sub);
      assert [s[0]] + s[1..] == s;
    }
  }

  /** If `pat` occurs, the result of replacing it contains `sub`. */
  lemma {:induction false} ReplaceAllIntroduces(s: String, pat: String, sub: String)
    requires |pat| > 0 && Contains(s, pat)
    ensures Contains(ReplaceAll(s, pat, sub), sub)
    decreases |s|
  {
    var r := ReplaceAll(s, pat, sub);
    if StartsWith(s, pat) {
      assert r[..|sub|] == sub;
    } else {
      ReplaceAllIntroduces(s[1..], pat, sub);
      assert r[1..] == ReplaceAll(s[1..], pat, sub);
    }
  }

  /** No occurrence of `pat` starts at an offset below `k` of `t`. */
  ghost predicate NoMatchBelow(t: String, pat: String, k: int) {
    forall i :: 0 <= i < k ==> !OccursAt(t, pat, i)
  }

  /** Dropping the first character shifts every offset down by one. */
  lemma NoMatchBelowTail(t: String, pat: String, k: int)
    requires |t| > 0 && NoMatchBelow(t, pat, k)
    ensures NoMatchBelow(t[1..], pat, k - 1)
  {
    forall i | 0 <= i < k - 1
      ensures !OccursAt(t[1..], pat, i)
    {
      assert !OccursAt(t, pat, i + 1);
      if i + |pat| <= |t[1..]| {
        assert t[1..][i..i + |pat|] == t[i + 1..i + 1 + |pat|];
      }
    }
  }

  /** Text shorter than the pattern is left as it is. */
  lemma ReplaceAllShort(t: String, pat: String, sub: String)
    requires 0 < |pat| && |t| < |pat|
    ensures ReplaceAll(t, pat, sub) == t
  {
  }

  /** Where no occurrence starts, the first character is copied through. */
  lemma ReplaceAllCopies(t: String, pat: String, sub: String)
    requires 0 < |pat| <= |t| && !StartsWith(t, pat)
    ensures ReplaceAll(t, pat, sub) == [t[0]] + ReplaceAll(t[1..], pat, sub)
  {
  }

  /** One step of `ReplaceAllKeepsPrefix`: if no occurrence starts at the
      front, the first character of `prefix` passes through unchanged. */
  lemma ReplaceAllConsStep(prefix: String, s: String, pat: String, sub: String)
    requires |pat| > 0 && |prefix| > 0
    requires !OccursAt(prefix + s, pat, 0)
    requires ReplaceAll(prefix[1..] + s, pat, sub) == prefix[1..] + ReplaceAll(s, pat, sub)
    ensures ReplaceAll(prefix + s, pat, sub) == prefix + ReplaceAll(s, pat, sub)
  {
    var t := prefix + s;
    assert t[1..] == prefix[1..] + s;
    var r := ReplaceAll(s, pat, sub);
    if |t| < |pat| {
      ReplaceAllShort(t, pat, sub);
      ReplaceAllShort(s, pat, sub);
    } else {
      assert !StartsWith(t, pat);
      ReplaceAllCopies(t, pat, sub);
      assert [prefix[0]] + (prefix[1..] + r) == prefix + r;
    }
  }

  /** Replacing in `prefix + s` leaves `prefix` alone when no occurrence of
      `pat` starts inside it. */
  lemma {:induction false} ReplaceAllKeepsPrefix(prefix: String, s: String, pat: String, sub: String)
    requires |pat| > 0
    requires NoMatchBelow(prefix + s, pat, |prefix|)
    ensures ReplaceAll(prefix + s, pat, sub) == prefix + ReplaceAll(s, pat, sub)
    decreases |prefix|
  {
    if |prefix| > 0 {
      var t := prefix + s;
      assert t[1..] == prefix[1..] + s;
      NoMatchBelowTail(t, pat, |prefix|);
      ReplaceAllKeepsPrefix(prefix[1..], s, pat, sub);
      ReplaceAllConsStep(prefix, s, pat, sub);
    } else {
      assert prefix + s == s;
    }
  }

  /** Replacing in the pattern itself yields the replacement. */
  lemma ReplaceAllOfPattern(pat: String, sub: String)
    requires |pat| > 0
    ensures ReplaceAll(pat, pat, sub) == sub
  {
  }

  /** Python's `a, b = s.split(c)`: succeeds exactly when `c` occurs once in
      `s`, and then the two halves reassemble `s` around that `c`. */
  function SplitPair(s: String, c: char): (r: Option<(String, String)>)
    ensures r.Some? <==> multiset(s)[c] == 1
    ensures r.Some? ==> r.value.0 + [c] + r.value.1 == s && c !in r.value.0 && c !in r.value.1
    decreases |s|
  {
    if |s| == 0 then None
    else
      assert s == [s[0]] + s[1..];
      assert multiset(s) == multiset([s[0]]) + multiset(s[1..]);
      if s[0] == c then
        if c in s[1..] then None else Some(([], s[1..]))
      else
        match SplitPair(s[1..], c)
        case None => None
        case Some((a, b)) => Some(([s[0]] + a, b))
  }
}

=== FILE: transcription.dfy ===
/** OCR transcription: the `transcribe` callback, which produces (or finds) a
    `_transcribed.pdf` derivative of the current file, and `update_status`,
    which describes the current file name. */
module Transcription {
  import opened Results
  import opened Strings
  import opened Paths

  /** How the OCR branch of `transcribe` ends. Rasterising, recognising and
      assembling the pages happen first; the returned name is renamed next;
      only then is the output file opened and written. */
  datatype OcrRun =
    | OcrFailed     // rasterising or recognition raised: nothing renamed or written
    | OpenFailed    // the name was renamed, then opening the output raised
    | WriteFailed   // the output was created, then writing into it raised
    | OcrWritten    // the derivative was written in full

  /** The status line `transcribe` shows. */
  datatype Status = Done | Failed

  function StatusText(s: Status): String {
    match s
    case Done => "Transcribed: True"
    case Failed => "Transcribed: Failed to transcribe file"
  }

  /** The callback raising instead of returning: comparing `None >= 1`
      (a `TypeError`), or returning with no status bound when the click
      count is below one (an `UnboundLocalError`). */
  datatype TranscribeError = ClicksMissing | StatusUnbound

  /** A returned status and file name, the resulting file system, and whether
      OCR was run. */
  datatype Transcribed = Transcribed(status: Status, filename: String, fs: FileSystem, ocrRan: bool)

  /** Path of the OCR derivative of an uploaded file. */
  function DerivativePath(filename: String): String {
    TempDir + TranscribedName(filename)
  }

  /** `transcribe(n_clicks, filename)`; `run` is what the OCR branch does when
      it is reached. */
  function Transcribe(nClicks: Option<int>, filename: String, fs: FileSystem, run: OcrRun)
    : (r: Result<Transcribed, TranscribeError>)
    ensures nClicks.None? <==> r == Err(ClicksMissing)
    ensures (nClicks.Some? && nClicks.value < 1) <==> r == Err(StatusUnbound)
    // Already a derivative: returned as it is.
    ensures nClicks.Some? && nClicks.value >= 1 && Contains(filename, TranscribedSuffix) ==>
              r == Ok(Transcribed(Done, filename, fs, false))
    // The derivative exists: a cache hit, no OCR.
    ensures nClicks.Some? && nClicks.value >= 1 && !Contains(filename, TranscribedSuffix)
            && DerivativePath(filename) in fs ==>
              r == Ok(Transcribed(Done, TranscribedName(filename), fs, false))
    // Otherwise OCR runs; at most the derivative's path is added.
    ensures nClicks.Some? && nClicks.value >= 1 && !Contains(filename, TranscribedSuffix)
            && DerivativePath(filename) !in fs ==>
              r.Ok? && r.value.ocrRan
              && (r.value.status == Done <==> run == OcrWritten)
              && r.value.fs == (if run.WriteFailed? || run.OcrWritten? then fs + {DerivativePath(filename)} else fs)
              && r.value.filename == (if run.OcrFailed? then filename else TranscribedName(filename))
  {
    var filepath := TempDir + filename;
    match nClicks
    case None => Err(ClicksMissing)
    case Some(n) =>
      if n < 1 then Err(StatusUnbound)
      else if Contains(filename, TranscribedSuffix) then
        Ok(Transcribed(Done, filename, fs, false))
      else
        TempPathRename(filename);
        var target := ReplaceAll(filepath, PdfExt, TranscribedSuffix);
        if target in fs then
          Ok(Transcribed(Done, TranscribedName(filename), fs, false))
        else
          match run
          case OcrFailed => Ok(Transcribed(Failed, filename, fs, true))
          case OpenFailed => Ok(Transcribed(Failed, TranscribedName(filename), fs, true))
          case WriteFailed => Ok(Transcribed(Failed, TranscribedName(filename), fs + {target}, true))
          case OcrWritten => Ok(Transcribed(Done, TranscribedName(filename), fs + {target}, true))
  }

  /** Idempotence of the returned name: transcribing the name a call returned,
      against the file system that call left, returns that same name again,
      unless the first call's OCR itself failed (see `OcrFailureThenRenames`).
      After a successful call nothing further happens at all: no OCR, no
      write, whatever the OCR would have done. */
  lemma {:induction false} TranscribeIdempotent(n: int, m: int, filename: String, fs: FileSystem,
                                                run: OcrRun, run': OcrRun)
    requires n >= 1 && m >= 1
    requires !Transcribe(Some(n), filename, fs, run).value.ocrRan || run != OcrFailed
    ensures var t := Transcribe(Some(n), filename, fs, run).value;
            var u := Transcribe(Some(m), t.filename, t.fs, run');
            u.Ok? && u.value.filename == t.filename
    ensures var t := Transcribe(Some(n), filename, fs, run).value;
            t.status == Done ==>
              Transcribe(Some(m), t.filename, t.fs, run') == Ok(Transcribed(Done, t.filename, t.fs, false))
  {
  }

  /** The exception to idempotence: when OCR fails on `stem.pdf` the original
      name comes back, and clicking again may then produce and return
      `stem_transcribed.pdf`. */
  lemma OcrFailureThenRenames(stem: String, fs: FileSystem)
    requires '.' !in stem && !EndsWith(stem, "_transcribed")
    requires TempDir + stem + TranscribedSuffix !in fs
    ensures var t := Transcribe(Some(1), stem + PdfExt, fs, OcrFailed).value;
            var u := Transcribe(Some(2), t.filename, t.fs, OcrWritten).value;
            t.filename == stem + PdfExt && StatusText(t.status) == "Transcribed: Failed to transcribe file"
            && u.filename == stem + TranscribedSuffix && u.filename != t.filename
  {
    TranscribedNameOfPdf(stem);
    NoSuffixInPdfName(stem);
    assert TempDir + stem + TranscribedSuffix == TempDir + (stem + TranscribedSuffix);
    assert (stem + TranscribedSuffix)[|stem|] == '_' && (stem + PdfExt)[|stem|] == '.';
  }

  /** A second request for the same original name after a successful OCR is a
      cache hit: same returned name, no OCR. */
  lemma TranscribeAgainIsCacheHit(n: int, m: int, filename: String, fs: FileSystem,
                                  run: OcrRun, run': OcrRun)
    requires n >= 1 && m >= 1
    requires Transcribe(Some(n), filename, fs, run).Ok?
    requires Transcribe(Some(n), filename, fs, run).value.status == Done
    ensures var t := Transcribe(Some(n), filename, fs, run).value;
            Transcribe(Some(m), filename, t.fs, run') == Ok(Transcribed(Done, t.filename, t.fs, false))
  {
  }

  /** A successful OCR writes exactly one new file, the derivative. */
  lemma OcrWritesOneFile(n: int, filename: String, fs: FileSystem)
    requires n >= 1 && !Contains(filename, TranscribedSuffix) && DerivativePath(filename) !in fs
    ensures var t := Transcribe(Some(n), filename, fs, OcrWritten).value;
            t.fs - fs == {DerivativePath(filename)} && fs <= t.fs
  {
  }

  /** Because the name is renamed before the output is opened, a failed open
      returns a name whose derivative file does not exist, even though the
      status says the transcription failed. The next click takes that name
      for a derivative and reports success for a file that is not there. */
  lemma RenameBeforeWrite(stem: String, fs: FileSystem, run': OcrRun)
    requires '.' !in stem && TempDir + stem + TranscribedSuffix !in fs
    requires !EndsWith(stem, "_transcribed")
    ensures var t := Transcribe(Some(1), stem + PdfExt, fs, OpenFailed).value;
            t.status == Failed && t.filename == stem + TranscribedSuffix
            && TempDir + t.filename !in t.fs
            && StatusText(t.status) == "Transcribed: Failed to transcribe file"
    ensures var t := Transcribe(Some(1), stem + PdfExt, fs, OpenFailed).value;
            var u := Transcribe(Some(2), t.filename, t.fs, run');
            u == Ok(Transcribed(Done, stem + TranscribedSuffix, fs, false))
            && StatusText(u.value.status) == "Transcribed: True"
            && TempDir + u.value.filename !in u.value.fs
  {
    TranscribedNameOfPdf(stem);
    NoSuffixInPdfName(stem);
    StatusOfDocumentNames(stem);
    assert TempDir + stem + TranscribedSuffix == TempDir + (stem + TranscribedSuffix);
  }

  /** What `update_status` shows for a file name. */
  datatype OcrNote = OcrApplied(original: String) | NotYetTranscribed

  function OcrNoteText(note: OcrNote): String {
    match note
    case OcrApplied(original) => "OCR applied to " + original + " successfully"
    case NotYetTranscribed => "Not yet transcribed: Only necessary when the .pdf is scanned"
  }

  /** `update_status`: a derivative's name is reported as transcribed, naming
      the file with the suffix removed; any other name is not. */
  function UpdateStatus(filename: String): (r: OcrNote)
    ensures r.OcrApplied? <==> Contains(filename, TranscribedSuffix)
  {
    if Contains(filename, TranscribedSuffix) then OcrApplied(ReplaceAll(filename, TranscribedSuffix, ""))
    else NotYetTranscribed
  }

  /** After uploading `stem.pdf` the page says it is not yet transcribed;
      after switching to its derivative it says OCR was applied to `stem`. */
  lemma StatusOfDocumentNames(stem: String)
    requires '.' !in stem && !EndsWith(stem, "_transcribed")
    ensures UpdateStatus(stem + PdfExt) == NotYetTranscribed
    ensures UpdateStatus(stem + TranscribedSuffix) == OcrApplied(stem)
    ensures OcrNoteText(UpdateStatus(stem + TranscribedSuffix)) == "OCR applied to " + stem + " successfully"
  {
    NoSuffixInPdfName(stem);
    NoSuffixInStem(stem);
    ReplaceAllKeepsPrefix(stem, TranscribedSuffix, TranscribedSuffix, "");
    ReplaceAllOfPattern(TranscribedSuffix, "");
    assert stem + "" == stem;
    assert StartsWith(TranscribedSuffix, TranscribedSuffix);
    assert (stem + TranscribedSuffix)[|stem|..] == TranscribedSuffix;
    ContainsIffOccurs(stem + TranscribedSuffix, TranscribedSuffix);
    assert OccursAt(stem + TranscribedSuffix, TranscribedSuffix, |stem|);
  }
}

=== FILE: upload.dfy ===
/** Uploading a file: `parse_contents` / `parse_pdf` decide whether the
    upload is stored under the temporary directory, and `update_output`
    turns that into what the page shows next. */
module Upload {
  import opened Results
  import opened Strings
  import opened Paths

  /** How `parse_contents` ends for one upload. */
  datatype ParseStatus =
    | Stored                      // written to `assets/temp/<filename>`
    | DerivativeSkipped           // a `_transcribed.pdf` name: nothing written
    | Unsupported(message: String) // not a `.pdf`: a message and nothing written
    | MalformedContents           // `contents.split(',')` did not give two parts
    | OpenFailed                  // opening `assets/temp/<filename>` raised
    | UndecodableContents         // base64 decoding raised after the file was opened

  datatype Parsed = Parsed(fs: FileSystem, status: ParseStatus)

  /** The outcomes that escape `parse_contents` as exceptions. */
  predicate Raised(status: ParseStatus) {
    status.MalformedContents? || status.OpenFailed? || status.UndecodableContents?
  }

  function UnsupportedMessage(filename: String): String {
    filename + " is unsupported; only .pdf is currently supported"
  }

  /** `parse_pdf`. The file is opened (and so created) before the payload is
      decoded, so a payload that fails to decode still leaves the path behind.
      `opens` is whether opening the file for writing succeeds and `decodes`
      whether the base64 decoder accepts the payload. */
  function ParsePdf(contents: String, filename: String, opens: bool, decodes: bool, fs: FileSystem): (r: Parsed)
    ensures r.fs == if multiset(contents)[','] == 1 && !Contains(filename, TranscribedSuffix) && opens
                    then fs + {TempDir + filename} else fs
    ensures r.status.Stored? <==> multiset(contents)[','] == 1 && !Contains(filename, TranscribedSuffix)
                                  && opens && decodes
    ensures r.status.DerivativeSkipped? <==> multiset(contents)[','] == 1 && Contains(filename, TranscribedSuffix)
    ensures !r.status.Unsupported?
  {
    match SplitPair(contents, ',')
    case None => Parsed(fs, MalformedContents)
    case Some(_) =>
      if Contains(filename, TranscribedSuffix) then Parsed(fs, DerivativeSkipped)
      else if !opens then Parsed(fs, OpenFailed)
      else if decodes then Parsed(fs + {TempDir + filename}, Stored)
      else Parsed(fs + {TempDir + filename}, UndecodableContents)
  }

  /** `parse_contents`: a file is stored exactly when its name ends in `.pdf`,
      is not an OCR derivative's name, its data URL splits in two and the file
      can be opened; no other path is ever touched, and a non-PDF only gets
      the "unsupported" message. */
  function ParseContents(contents: String, filename: String, opens: bool, decodes: bool, fs: FileSystem)
    : (r: Parsed)
    ensures r.fs == if EndsWith(filename, PdfExt) && !Contains(filename, TranscribedSuffix)
                       && multiset(contents)[','] == 1 && opens
                    then fs + {TempDir + filename} else fs
    ensures r.status.Stored? <==> EndsWith(filename, PdfExt) && !Contains(filename, TranscribedSuffix)
                                  && multiset(contents)[','] == 1 && opens && decodes
    ensures !EndsWith(filename, PdfExt) ==> r.status == Unsupported(UnsupportedMessage(filename))
    ensures r.status.Unsupported? <==> !EndsWith(filename, PdfExt)
    ensures r.status.DerivativeSkipped? <==> EndsWith(filename, PdfExt) && multiset(contents)[','] == 1
                                             && Contains(filename, TranscribedSuffix)
    ensures r.status.MalformedContents? <==> EndsWith(filename, PdfExt) && multiset(contents)[','] != 1
    ensures Raised(r.status) <==> EndsWith(filename, PdfExt)
                                  && (multiset(contents)[','] != 1
                                      || (!Contains(filename, TranscribedSuffix) && (!opens || !decodes)))
  {
    LastCharsIsSuffixTest(filename, PdfExt);
    if LastChars(filename, 4) == PdfExt then ParsePdf(contents, filename, opens, decodes, fs)
    else Parsed(fs, Unsupported(UnsupportedMessage(filename)))
  }

  /** What `update_output` hands to the page: nothing (the callback returned
      `None` or raised), or the new current file name with both button click
      counts reset to zero. The parse result itself is discarded. */
  datatype Reply = NoUpdate | Show(filename: String, transcribeClicks: int, indexClicks: int)

  datatype Uploaded = Uploaded(fs: FileSystem, reply: Reply)

  /** `update_output`: the page moves to the uploaded name exactly when there
      are contents and parsing them does not raise. */
  function UpdateOutput(contents: Option<String>, filename: String, opens: bool, decodes: bool, fs: FileSystem)
    : (r: Uploaded)
    ensures contents.None? ==> r == Uploaded(fs, NoUpdate)
    ensures contents.Some? ==> r.fs == ParseContents(contents.value, filename, opens, decodes, fs).fs
    ensures r.reply.Show? ==> r.reply == Show(filename, 0, 0)
    ensures contents.Some? ==>
              (r.reply.NoUpdate? <==>
                 EndsWith(filename, PdfExt)
                 && (multiset(contents.value)[','] != 1
                     || (!Contains(filename, TranscribedSuffix) && (!opens || !decodes))))
  {
    match contents
    case None => Uploaded(fs, NoUpdate)
    case Some(c) =>
      var parsed := ParseContents(c, filename, opens, decodes, fs);
      if Raised(parsed.status) then Uploaded(parsed.fs, NoUpdate)
      else Uploaded(parsed.fs, Show(filename, 0, 0))
  }
}

=== FILE: workflow.dfy ===
/** How the callbacks compose on the page: the upload resets both buttons,
    the transcribe callback hands its returned name to the status line and to
    the index callback, and the index callback hands its directory to the
    query callback. */
module Workflow {
  import opened Results
  import opened Strings
  import opened Paths
  import opened Upload
  import opened Transcription
  import opened Indexing
  import opened Querying

  /** The click counts an upload resets to zero re-fire the transcribe and
      index callbacks: the first raises (no status bound), the second reports
      "not yet indexed" with no index directory, so a query then gets
      "Index not yet built". */
  lemma UploadResetFiresCallbacks(contents: String, filename: String, opens: bool, decodes: bool, fs: FileSystem,
                                  fs': FileSystem, run: OcrRun, builds: bool, question: String)
    requires UpdateOutput(Some(contents), filename, opens, decodes, fs).reply.Show?
    requires |question| > 0
    ensures var reply := UpdateOutput(Some(contents), filename, opens, decodes, fs).reply;
            && Transcribe(Some(reply.transcribeClicks), reply.filename, fs', run) == Err(StatusUnbound)
            && Index(Some(reply.indexClicks), reply.filename, fs', builds) == Indexed(None, NotYetIndexed, fs', false)
            && LlmQuery(Some(1), Some(question), Index(Some(reply.indexClicks), reply.filename, fs', builds).dbPath)
               == IndexNotBuilt
    ensures var reply := UpdateOutput(Some(contents), filename, opens, decodes, fs).reply;
            var x := Index(Some(reply.indexClicks), reply.filename, fs', builds);
            IndexTextRender(x.text) == "File not yet indexed"
            && QueryMessage(LlmQuery(Some(1), Some(question), x.dbPath)) == "Index not yet built"
  {
  }

  /** The index directory handed over by a clicked `index` is never empty, so
      a clicked query with a question goes to that index, even while the page
      says the build failed; before a click it cannot. */
  lemma QueryFollowsIndex(nClicks: Option<int>, filename: String, fs: FileSystem, builds: bool,
                          qClicks: Option<int>, question: Option<String>)
    requires ClicksTruthy(qClicks) && TextTruthy(question)
    ensures var x := Index(nClicks, filename, fs, builds);
            LlmQuery(qClicks, question, x.dbPath)
            == if x.buildRan then Answer(question.value, DbPath(filename)) else IndexNotBuilt
    ensures var x := Index(nClicks, filename, fs, builds);
            x.buildRan && !builds ==> IndexTextRender(x.text) == "Failed to build index for " + filename
  {
  }

  /** The life of one scanned document `stem.pdf`: it is stored on upload,
      OCR writes `stem_transcribed.pdf` and the page switches to that name,
      the status line credits OCR to `stem`, indexing the derivative builds
      `assets/db/<stem>/` (the directory the original name maps to as well),
      and a question is then answered from that index. */
  lemma DocumentLifecycle(stem: String, contents: String, fs: FileSystem, question: String)
    requires '.' !in stem && !EndsWith(stem, "_transcribed")
    requires multiset(contents)[','] == 1
    requires TempDir + stem + TranscribedSuffix !in fs
    requires |question| > 0
    ensures var u := UpdateOutput(Some(contents), stem + PdfExt, true, true, fs);
            && u.reply == Show(stem + PdfExt, 0, 0)
            && TempDir + stem + PdfExt in u.fs
            && var t := Transcribe(Some(1), stem + PdfExt, u.fs, OcrWritten);
            && t == Ok(Transcribed(Done, stem + TranscribedSuffix,
                                   u.fs + {TempDir + stem + TranscribedSuffix}, true))
            && UpdateStatus(t.value.filename) == OcrApplied(stem)
            && var x := Index(Some(1), t.value.filename, t.value.fs, true);
            && x.dbPath == Some(DbRoot + stem + "/")
            && x.dbPath == Some(DbPath(stem + PdfExt))
            && DbExists(DbRoot + stem + "/", x.fs)
            && LlmQuery(Some(1), Some(question), x.dbPath) == Answer(question, DbRoot + stem + "/")
  {
    var name := stem + PdfExt;
    LastCharsIsSuffixTest(name, PdfExt);
    assert EndsWith(name, PdfExt);
    NoSuffixInPdfName(stem);
    var u := UpdateOutput(Some(contents), name, true, true, fs);
    assert u.fs == fs + {TempDir + name};
    TranscribedNameOfPdf(stem);
    assert TempDir + stem + TranscribedSuffix == TempDir + (stem + TranscribedSuffix);
    assert TempDir + stem + PdfExt == TempDir + name;
    assert |TempDir + name| != |TempDir + (stem + TranscribedSuffix)|;
    assert DerivativePath(name) !in u.fs;
    StatusOfDocumentNames(stem);
    DerivativeSharesIndex(stem);
  }
}
